=== FILE: README.md ===
# Distributed arithmetic calculator: expression back end

This project models the expression back end of a distributed arithmetic calculator.
An expression is evaluated by decomposing it into binary operations that remote
workers compute. The model covers four things:

- **Tree building** (`RpnToTree`). A postfix token list becomes a binary operation tree through an explicit stack of pending nodes. A number pushes a leaf. An operator pops the top node as its right child and the node beneath as its left child, then pushes the combined node. The build fails when an operator finds fewer than two pending nodes, or when anything other than exactly one node is left at the end.
- **Tree evaluation** (`EvaluateParallel`). A leaf is its value. An internal node first evaluates both children. For `+ - *`, and for `/` with a non-zero right operand, it then publishes one task and takes the value a worker delivers for it. `/` by zero yields the left operand without a task. An unknown operator yields 0.
- **The worker's arithmetic** (inside `AgentRun`). This is the switch that computes a task's result.
- **The `Calc` pipeline**: strip spaces, reject empty input, check brackets, convert to postfix, build the tree, evaluate.

Modelling choices:

- Values are exact `real`s standing in for `float64`.
- Tokens are `Num(real) | Op(string)`. A token that does not parse as a number is an operator, as `strconv.ParseFloat` decides in the source.
- The fork-join over subtrees only waits for both children before the node's task is created. Evaluation is therefore a pure recursive function, and the worker is a parameter: an oracle from a task to the value delivered on its channel.
- Evaluation also returns the tasks it published, in creation order. Ids are drawn consecutively from a counter private to the one evaluation. The plain evaluator numbers the left subtree first.
- The source starts both subtrees in goroutines, so which subtree creates its tasks first is up to the scheduler. A *schedule* names, by path from the root, the nodes whose right subtree goes first. The scheduled evaluator with the empty schedule is the plain one.
- A worker is *honest* when it answers as the agent's arithmetic does. For honest workers, evaluation under every schedule equals an independent exact-arithmetic meaning of the tree (`Denote`). It also publishes the same jobs (tasks without their ids) under every schedule. So neither the value nor the work asked of the workers depends on the order in which sibling subtrees create their tasks or on the first id.
- The bracket check and the infix-to-postfix conversion live in a converter package that is not part of this model. `Calc` takes them as function parameters.

Modules:

- `Results`: result type.
- `Tasks`: task and result records, and the operator classification both sides switch on.
- `Agent`: the worker's arithmetic.
- `ExprTree`: tokens, nodes, postfix traversal.
- `TreeBuilder`: `RpnToTree`.
- `Evaluator`: `EvaluateParallel`, left subtree first.
- `Scheduling`: `EvaluateParallel` under any order of sibling subtrees.
- `Calculator`: `Calc`.
- `Scenarios`: worked expressions.

## Model

| member | source | states |
|---|---|---|
| Agent.Compute | internal/agent_application/agent_application.go:38-49 | the result carries the task's id; `+ - * /` give the sum, difference, product and quotient of the operands; an unknown operator leaves the result 0; in exact arithmetic only division by a zero operand leaves the finite numbers |
| Evaluator.AgentWorkerIsHonest | internal/agent_application/agent_application.go:38-49 | the agent's own arithmetic is an honest worker, so the honesty hypothesis of the correctness lemmas can be met |
| Evaluator.HonestWorkerApplies | internal/agent_application/agent_application.go:40-49 | an honest worker answers every task the evaluator can publish with the exact meaning of its operator |
| ExprTree.LeafCountIsInternalCountPlusOne | internal/orchestrator_application/orchestrator_application.go:28-33 | every operation tree has exactly one more leaf than internal nodes |
| ExprTree.PostfixIsValid | internal/orchestrator_application/orchestrator_application.go:36-64 | the postfix traversal of any tree gives every operator two pending operands and leaves exactly one |
| TreeBuilder.Run | internal/orchestrator_application/orchestrator_application.go:39-58 | the token loop stops at the first error, which is always a short operator occurring among the tokens; on success the stack has grown by the tokens' net operand count (numbers minus operators) |
| TreeBuilder.Step | internal/orchestrator_application/orchestrator_application.go:39-57 | a number pushes a leaf with exactly its value; an operator with fewer than two pending nodes fails naming the operator; otherwise the top node becomes the right child, the one beneath the left child, the stack shrinks by one and nodes below the top two are untouched |
| TreeBuilder.RpnToTree | internal/orchestrator_application/orchestrator_application.go:60-64 | the build succeeds iff exactly one node remains after all tokens and returns that node; a token error is passed on; any other final stack size is an incorrect expression |
| TreeBuilder.BuildTree | internal/orchestrator_application/orchestrator_application.go:36-65 | the loop over an explicit stack computes the same result as the fold, and a returned tree's postfix traversal is the input |
| TreeBuilder.RunFlatten | internal/orchestrator_application/orchestrator_application.go:39-58 | consuming tokens appends them to the concatenated postfix traversals of the pending stack |
| TreeBuilder.RpnToTreeSound | internal/orchestrator_application/orchestrator_application.go:36-64 | a returned tree's postfix traversal equals the input token list, and it has one more leaf than internal nodes |
| TreeBuilder.RunPostfix | internal/orchestrator_application/orchestrator_application.go:39-58 | consuming a tree's postfix traversal pushes exactly that tree and leaves the stack beneath alone |
| TreeBuilder.RpnToTreeOfPostfix | internal/orchestrator_application/orchestrator_application.go:36-64 | building from the postfix traversal of any tree returns that tree, so build and traversal are inverse |
| TreeBuilder.RunOutcome | internal/orchestrator_application/orchestrator_application.go:39-58 | from a stack of pending nodes, the loop succeeds iff no operator finds fewer than two nodes, then leaves the stack grown by the tokens' arity; otherwise it fails at the first such operator, naming it |
| TreeBuilder.RpnToTreeSucceedsIff | internal/orchestrator_application/orchestrator_application.go:36-64 | the build succeeds exactly on well-formed postfix lists: every operator preceded by at least two net operands, exactly one left at the end |
| TreeBuilder.RpnToTreeErrors | internal/orchestrator_application/orchestrator_application.go:45-61 | a short operator is reported iff some operator has fewer than two net operands before it, naming the first one; an incorrect expression is reported iff no operator runs short but the net count is not one |
| Evaluator.Eval | internal/orchestrator_application/orchestrator_application.go:67-117 | evaluation left subtree first, with tasks numbered from `next`; it has no contract of its own, and its behaviour is stated by `EvalLeaf`, `TaskAfterBothSubtrees`, `ZeroDivisorSkipsTask`, `UnknownOperatorYieldsZero`, `PublishedTasks` and `EvalCorrect` |
| Evaluator.Finish | internal/orchestrator_application/orchestrator_application.go:92-116 | a node's own step keeps the subtrees' tasks and adds at most one task after them; it adds one exactly when the operator is known and is not `/` with a zero right operand; that task carries (left value, right value, operator) and the given id, and the node's value is the worker's answer to it |
| Evaluator.EvalLeaf | internal/orchestrator_application/orchestrator_application.go:69-72 | a leaf evaluates to its stored value and creates no task |
| Evaluator.TaskAfterBothSubtrees | internal/orchestrator_application/orchestrator_application.go:88-113 | for `+ - *` and for `/` with a non-zero right operand, the node's value is the worker's answer to one task carrying (left value, right value, operator), created after every task of both subtrees |
| Evaluator.ZeroDivisorSkipsTask | internal/orchestrator_application/orchestrator_application.go:107-110 | `/` whose right operand evaluates to 0 yields the left operand and creates no task of its own |
| Evaluator.UnknownOperatorYieldsZero | internal/orchestrator_application/orchestrator_application.go:114-115 | an unrecognised operator yields 0 and creates no task of its own, though both subtrees are evaluated |
| Evaluator.AtMostOneTaskPerOperator | internal/orchestrator_application/orchestrator_application.go:94-116 | evaluation publishes at most one task per internal node |
| Evaluator.OneTaskPerOperator | internal/orchestrator_application/orchestrator_application.go:94-106 | a tree with only `+ - *` publishes exactly one task per internal node |
| Evaluator.PublishedTasks | internal/orchestrator_application/orchestrator_application.go:92-116 | published tasks carry distinct ids, increasing in creation order and drawn from the model's counter; each has an operator the worker knows and, for `/`, a non-zero divisor |
| Evaluator.PublishedTasksHaveFiniteResults | internal/orchestrator_application/orchestrator_application.go:107-113 | the worker's division branch is never handed a zero divisor: every published task has a finite answer |
| Evaluator.HonestJoin | internal/orchestrator_application/orchestrator_application.go:88-116 | with an honest worker, a node's own step yields its operator's exact meaning applied to its children's values |
| Evaluator.EvalCorrect | internal/orchestrator_application/orchestrator_application.go:68-117 | with an honest worker, evaluation yields the exact-arithmetic meaning of the tree, with `/` by zero as the left operand and unknown operators as 0 |
| Scheduling.EvalScheduled | internal/orchestrator_application/orchestrator_application.go:77-90 | evaluation where each node, named by its path, may let its right subtree create its tasks first, as the two goroutines allow; it has no contract of its own, and its behaviour is stated by `LeftFirstIsEval`, `ScheduledTasksNumbered` and `ScheduledSound` |
| Scheduling.LeftFirstIsEval | internal/orchestrator_application/orchestrator_application.go:77-90 | the schedule that starts every node with its left subtree gives exactly the left-first evaluator, value and tasks |
| Scheduling.ScheduledTasksNumbered | internal/orchestrator_application/orchestrator_application.go:77-116 | under every schedule the published tasks carry distinct ids, increasing in creation order and drawn from the model's counter; each has a known operator and, for `/`, a non-zero divisor |
| Scheduling.ScheduledSound | internal/orchestrator_application/orchestrator_application.go:67-117 | with an honest worker, under every schedule the value is the exact meaning of the tree, and the published jobs are exactly those the tree needs: one per `+ - *` node and per `/` node with a non-zero divisor, on its children's exact values |
| Scheduling.ValueIndependentOfTaskOrder | internal/orchestrator_application/orchestrator_application.go:77-116 | with an honest worker, two evaluations under any two schedules and any two first ids give the same value and publish the same jobs, differing only in ids and order |
| Calculator.RemoveSpaces | internal/orchestrator_application/orchestrator_application.go:123 | the result has no space, and every other character occurs as often as in the input |
| Calculator.RemoveSpacesAppend | internal/orchestrator_application/orchestrator_application.go:123 | stripping distributes over concatenation, so the remaining characters keep their order |
| Calculator.RemoveSpacesKeepsSpaceFree | internal/orchestrator_application/orchestrator_application.go:123 | text without spaces is unchanged, so stripping is idempotent |
| Calculator.RemoveSpacesEmptyIff | internal/orchestrator_application/orchestrator_application.go:123-128 | stripping leaves nothing exactly when the text is all spaces |
| Calculator.Calc | internal/orchestrator_application/orchestrator_application.go:121-148 | an error path publishes no task; the empty-expression error is returned iff the stripped text is empty; the bracket error is returned iff non-empty stripped text fails the bracket check; a converter error and a tree-building error are passed on unchanged; success implies every earlier stage succeeded, and then, whatever the workers answer, the result is the value the evaluation of the built tree produced (the workers' answer for the root's task, or the root number itself) and the published tasks are exactly that evaluation's tasks |
| Calculator.CalcIgnoresSpaces | internal/orchestrator_application/orchestrator_application.go:122-123 | spaces are removed before anything else, so the outcome equals the outcome for the space-free text |
| Calculator.EmptyIffAllSpaces | internal/orchestrator_application/orchestrator_application.go:125-128 | an expression is rejected as empty exactly when it consists of spaces only |
| Calculator.CalcSucceedsIff | internal/orchestrator_application/orchestrator_application.go:130-145 | a calculation succeeds exactly when the stripped text is non-empty, passes the bracket check and converts to a well-formed postfix list |
| Calculator.CalcValue | internal/orchestrator_application/orchestrator_application.go:141-147 | with an honest worker a successful result is the exact meaning of the tree whose postfix traversal is the converted list; the value comes from the workers: exactly the jobs that tree needs are published, one per `+ - *` node and per `/` node with a non-zero divisor, with distinct ids increasing from `next`, and none divides by zero |
| Scenarios.TwoPlusThreeTimesFour | internal/orchestrator_application/orchestrator_application.go:36-117 | `2 3 4 * +` builds `+`(2, `*`(3, 4)) and evaluates to 14 with two tasks |
| Scenarios.BracketedProductTree | internal/orchestrator_application/orchestrator_application.go:36-64 | `1 2 + 3 1 - *` builds the product of the two bracketed subtrees |
| Scenarios.BracketedProductValue | internal/orchestrator_application/orchestrator_application.go:68-117 | that product evaluates to 6 |
| Scenarios.FiveDividedByZero | internal/orchestrator_application/orchestrator_application.go:107-110 | `5 0 /` evaluates to 5 with no task, whatever the workers do |
| Scenarios.TrailingOperator | internal/orchestrator_application/orchestrator_application.go:45-46 | `2 +` fails with a short-operand error naming `+` |
| Scenarios.LeftoverOperands | internal/orchestrator_application/orchestrator_application.go:60-61 | `1 2` leaves two nodes and is an incorrect expression |

## Left out

- HTTP handlers, JSON and `RunServer` (internal/orchestrator_application/orchestrator_application.go:152-272) are transport plumbing. One point about them: on a failed calculation the handler sets the error status only on its local copy of the expression record and never writes it back, while success does write it back.
- The agent's polling loop, HTTP client, timers and the per-operator sleep (internal/agent_application/agent_application.go:21-37 and 50-57) are network I/O and timing. Only the result computation is modelled.
- Goroutines and channels in `EvaluateParallel` are not modelled. Evaluation is sequential with the worker as an oracle. The model's workers always answer; a worker that never answers leaves the source blocked forever, and that liveness hazard is not modelled.
- The task and expression maps, `NewTask`, `NewExpression` and id generation live in a structs package that is not part of this model. Task ids are drawn from a counter passed as `next`. In the program every calculation the handler starts shares one global task store, so one expression's task ids need not be consecutive.
- Claiming and completing tasks through the task map is not modelled: that code is not part of this model.
- The expression-history store is not modelled: that code is not part of this model either.
- The converter package's `IsValidParentheses` and `InfixToRPN` are uninterpreted function parameters of `Calc`. Their own behaviour (precedence, malformed infix) is not modelled.
- Calculator.Calc: `ConversionFailed` and `TreeFailed` are tags the model puts on errors to record the failing stage; Go has no such tags. The source returns the converter's error value itself, and the handler compares errors by value. So a converter that returned the bracket error would look exactly like the bracket check in the program, whereas the model keeps the two apart.
- Configuration loading and per-operator durations have no effect on values. They are not in the `Task` record.
- IEEE `float64` details are not modelled: rounding, overflow of `+ - *` to ±Inf (for example `1e308 * 10`), `-0`, and `strconv.ParseFloat` edge cases. Values are exact reals, and tokens arrive already classified as numbers or operators.
- Agent.Compute: the infinities and NaN of division by zero are collapsed into one `NonFinite` value, because exact reals have no infinity. The overflow of `+ - *` to ±Inf has no counterpart on exact reals, so the model never reports it.
- Calculator.Calc: on an error the source also returns the value 0 next to the error. The model returns only the error, because the value is meaningless on that path.
- Scheduling.ValueIndependentOfTaskOrder: a schedule lets one sibling subtree create all its tasks before the other starts. The source's two goroutines may also interleave task creation between the subtrees; such interleavings are not modelled.
- Nodes with exactly one nil child would crash the source's evaluator. `RpnToTree` never builds them, and the tree type cannot express them.

=== FILE: agent.dfy ===
/** The worker's side of a task: the arithmetic a worker performs on a claimed task. */
module Agent {
  import opened Tasks

  /** The operators a worker knows how to apply. */
  predicate IsArithmetic(op: string) {
    Kind(op) != Other
  }

  /** The result a worker posts back for a claimed task. The answer is addressed to the
      task it was computed from; an operator the worker does not know leaves the
      result at its zero value; only division by zero leaves the finite reals. */
  function Compute(t: Task): (r: TaskResult)
    ensures r.id == t.id
    ensures t.operation == "+" ==> r.result == Finite(t.operand1 + t.operand2)
    ensures t.operation == "-" ==> r.result == Finite(t.operand1 - t.operand2)
    ensures t.operation == "*" ==> r.result == Finite(t.operand1 * t.operand2)
    ensures t.operation == "/" && t.operand2 != 0.0 ==> r.result == Finite(t.operand1 / t.operand2)
    ensures !IsArithmetic(t.operation) ==> r.result == Finite(0.0)
    ensures r.result.NonFinite? <==> t.operation == "/" && t.operand2 == 0.0
  {
    var value :=
      match Kind(t.operation)
      case Add => Finite(t.operand1 + t.operand2)
      case Sub => Finite(t.operand1 - t.operand2)
      case Mul => Finite(t.operand1 * t.operand2)
      case Div => if t.operand2 == 0.0 then NonFinite else Finite(t.operand1 / t.operand2)
      case Other => Finite(0.0);
    TaskResult(t.id, value)
  }
}

=== FILE: calculator.dfy ===
/** The full pipeline for one expression: strip spaces, reject empty input, check the
    brackets, convert to postfix, build the tree, evaluate. The bracket check and the
    infix-to-postfix conversion belong to a converter package whose code is not part of
    this model; they are parameters. */
module Calculator {
  import opened Results
  import opened Tasks
  import opened ExprTree
  import TreeBuilder
  import Evaluator
  import Scheduling
  import Agent

  /** Why an expression was rejected, one case per stage that can fail. */
  datatype CalcError =
    | EmptyExpression
    | IncorrectBracketPlacement
    | ConversionFailed(reason: string)
    | TreeFailed(cause: TreeBuilder.TreeError)

  /** The converter's two services: the bracket check and the infix-to-postfix conversion
      (whose numeric tokens are already classified as numbers). */
  type BracketCheck = string -> bool
  type Converter = string -> Result<seq<Token>, string>

  /** The result of one calculation together with every task its evaluation published. */
  datatype Outcome = Outcome(result: Result<real, CalcError>, tasks: seq<Task>)

  /** Every space character removed, everything else kept in order. */
  function RemoveSpaces(s: string): (r: string)
    ensures ' ' !in r
    ensures forall c :: c != ' ' ==> multiset(r)[c] == multiset(s)[c]
    ensures |r| <= |s|
  {
    if s == [] then []
    else
      assert s == [s[0]] + s[1..];
      (if s[0] == ' ' then [] else [s[0]]) + RemoveSpaces(s[1..])
  }

  /** Stripping spaces distributes over concatenation, so the order of the remaining
      characters is kept. */
  lemma {:induction false} RemoveSpacesAppend(a: string, b: string)
    ensures RemoveSpaces(a + b) == RemoveSpaces(a) + RemoveSpaces(b)
    decreases |a|
  {
    if a != [] {
      assert (a + b)[0] == a[0];
      assert (a + b)[1..] == a[1..] + b;
      RemoveSpacesAppend(a[1..], b);
    } else {
      assert a + b == b;
    }
  }

  /** Text without spaces is left as it is; in particular stripping twice is stripping once. */
  lemma {:induction false} RemoveSpacesKeepsSpaceFree(s: string)
    requires ' ' !in s
    ensures RemoveSpaces(s) == s
    decreases |s|
  {
    if s != [] {
      assert s[0] in s;
      assert forall i :: 0 <= i < |s[1..]| ==> s[1..][i] == s[i + 1];
      RemoveSpacesKeepsSpaceFree(s[1..]);
      assert s == [s[0]] + s[1..];
    }
  }

  /** Stripping leaves nothing exactly when the text is all spaces. */
  lemma {:induction false} RemoveSpacesEmptyIff(s: string)
    ensures RemoveSpaces(s) == [] <==> forall i :: 0 <= i < |s| ==> s[i] == ' '
    decreases |s|
  {
    if s != [] {
      RemoveSpacesEmptyIff(s[1..]);
      assert forall i :: 1 <= i < |s| ==> s[i] == s[1..][i - 1];
    }
  }

  /** Calculates an expression. Each stage runs only when every earlier one succeeded,
      and evaluation is the last stage, so a rejected expression publishes no task. */
  function Calc(expression: string, isValidParentheses: BracketCheck, infixToRpn: Converter,
                worker: Evaluator.Worker, next: int): (o: Outcome)
    ensures o.result.Err? ==> o.tasks == []
    ensures o.result == Err(EmptyExpression) <==> RemoveSpaces(expression) == []
    ensures o.result == Err(IncorrectBracketPlacement) <==>
      RemoveSpaces(expression) != [] && !isValidParentheses(RemoveSpaces(expression))
    ensures
      var stripped := RemoveSpaces(expression);
      stripped != [] && isValidParentheses(stripped) && infixToRpn(stripped).Err? ==>
        o.result == Err(ConversionFailed(infixToRpn(stripped).error))
    ensures
      var stripped := RemoveSpaces(expression);
      stripped != [] && isValidParentheses(stripped) && infixToRpn(stripped).Ok?
        && TreeBuilder.RpnToTree(infixToRpn(stripped).value).Err? ==>
        o.result == Err(TreeFailed(TreeBuilder.RpnToTree(infixToRpn(stripped).value).error))
    ensures o.result.Ok? ==>
      && isValidParentheses(RemoveSpaces(expression))
      && infixToRpn(RemoveSpaces(expression)).Ok?
      && TreeBuilder.RpnToTree(infixToRpn(RemoveSpaces(expression)).value).Ok?
    ensures o.result.Ok? ==>
      var e := Evaluator.Eval(TreeBuilder.RpnToTree(infixToRpn(RemoveSpaces(expression)).value).value, worker, next);
      o.result.value == e.value && o.tasks == e.tasks
  {
    var stripped := RemoveSpaces(expression);
    if stripped == [] then Outcome(Err(EmptyExpression), [])
    else if !isValidParentheses(stripped) then Outcome(Err(IncorrectBracketPlacement), [])
    else
      match infixToRpn(stripped)
      case Err(reason) => Outcome(Err(ConversionFailed(reason)), [])
      case Ok(rpn) =>
        match TreeBuilder.RpnToTree(rpn)
        case Err(cause) => Outcome(Err(TreeFailed(cause)), [])
        case Ok(tree) =>
          var e := Evaluator.Eval(tree, worker, next);
          Outcome(Ok(e.value), e.tasks)
  }

  /** Only the characters other than spaces matter: the outcome for an expression is the
      outcome for its space-free text. */
  lemma CalcIgnoresSpaces(expression: string, isValidParentheses: BracketCheck,
                          infixToRpn: Converter, worker: Evaluator.Worker, next: int)
    ensures Calc(expression, isValidParentheses, infixToRpn, worker, next)
      == Calc(RemoveSpaces(expression), isValidParentheses, infixToRpn, worker, next)
  {
    RemoveSpacesKeepsSpaceFree(RemoveSpaces(expression));
  }

  /** An expression of nothing but spaces is rejected as empty. */
  lemma EmptyIffAllSpaces(expression: string, isValidParentheses: BracketCheck,
                          infixToRpn: Converter, worker: Evaluator.Worker, next: int)
    ensures Calc(expression, isValidParentheses, infixToRpn, worker, next).result == Err(EmptyExpression)
      <==> forall i :: 0 <= i < |expression| ==> expression[i] == ' '
  {
    RemoveSpacesEmptyIff(expression);
  }

  /** A calculation succeeds exactly when the space-free text is non-empty, passes the
      bracket check and converts to a well-formed postfix token list. */
  lemma CalcSucceedsIff(expression: string, isValidParentheses: BracketCheck,
                        infixToRpn: Converter, worker: Evaluator.Worker, next: int)
    ensures Calc(expression, isValidParentheses, infixToRpn, worker, next).result.Ok? <==>
      var stripped := RemoveSpaces(expression);
      && stripped != []
      && isValidParentheses(stripped)
      && infixToRpn(stripped).Ok?
      && ValidPostfix(infixToRpn(stripped).value)
  {
    var stripped := RemoveSpaces(expression);
    if infixToRpn(stripped).Ok? {
      TreeBuilder.RpnToTreeSucceedsIff(infixToRpn(stripped).value);
    }
  }

  /** With an honest worker a successful calculation yields the exact meaning of the one
      tree whose postfix traversal is the converted token list. Its value comes from the
      workers: it publishes exactly the jobs that tree needs, one per `+ - *` node and
      per `/` node with a non-zero divisor, under distinct ids increasing from `next`,
      and no published task asks the worker to divide by zero. */
  lemma CalcValue(expression: string, isValidParentheses: BracketCheck,
                  infixToRpn: Converter, worker: Evaluator.Worker, next: int)
    requires Evaluator.Honest(worker)
    ensures
      var o := Calc(expression, isValidParentheses, infixToRpn, worker, next);
      o.result.Ok? ==>
        var rpn := infixToRpn(RemoveSpaces(expression)).value;
        var tree := TreeBuilder.RpnToTree(rpn).value;
        && Postfix(tree) == rpn
        && o.result.value == Evaluator.Denote(tree)
        && Scheduling.JobsOf(o.tasks) == Scheduling.Jobs(tree)
        && Evaluator.NumberedFrom(o.tasks, next)
        && forall t :: t in o.tasks ==> Agent.Compute(t).result.Finite?
  {
    var o := Calc(expression, isValidParentheses, infixToRpn, worker, next);
    if o.result.Ok? {
      var rpn := infixToRpn(RemoveSpaces(expression)).value;
      var tree := TreeBuilder.RpnToTree(rpn).value;
      TreeBuilder.RpnToTreeSound(rpn);
      Evaluator.EvalCorrect(tree, worker, next);
      Evaluator.PublishedTasksHaveFiniteResults(tree, worker, next);
      Evaluator.PublishedTasks(tree, worker, next);
      Scheduling.LeftFirstIsEval(tree, worker, next, {}, []);
      Scheduling.ScheduledSound(tree, worker, next, {}, []);
    }
  }
}

=== FILE: evaluator.dfy ===
/** Evaluation of the operation tree. Each internal node's operation is delegated to a
    worker through a task; the fork-join over subtrees only awaits both children before
    the node's task is created, so evaluation is a sequential pure function here and
    the worker is an oracle from tasks to the value it delivers. */
module Evaluator {
  import opened Tasks
  import opened ExprTree
  import Agent

  /** The value a worker delivers on the channel of a published task. */
  type Worker = Task -> real

  /** The value of a subtree together with the tasks its evaluation published, in the
      order they were created. */
  datatype Evaluation = Evaluation(value: real, tasks: seq<Task>)

  /** A task the evaluator may publish: an operator the worker knows and, for division,
      a non-zero divisor. */
  predicate Dispatchable(t: Task) {
    Agent.IsArithmetic(t.operation) && (Kind(t.operation) == Div ==> t.operand2 != 0.0)
  }

  /** Tasks numbered consecutively from `next`, each of them dispatchable. */
  predicate NumberedFrom(tasks: seq<Task>, next: int) {
    forall i :: 0 <= i < |tasks| ==> tasks[i].id == next + i && Dispatchable(tasks[i])
  }

  /** An internal node's own step once both children have been evaluated to `lv` and
      `rv`, after the tasks `before` of its subtrees: an unknown operator yields 0 and
      `/` by zero yields the left operand, both without a task; otherwise one task
      numbered `id` carries the children's values and the operator, and the node's
      value is what the worker delivers for it. */
  function Finish(op: string, lv: real, rv: real, before: seq<Task>, worker: Worker, id: int): (r: Evaluation)
    ensures r.tasks == before || r.tasks == before + [Task(id, lv, rv, op)]
    ensures r.tasks == before <==> Kind(op) == Other || (Kind(op) == Div && rv == 0.0)
    ensures r.tasks != before ==> r.value == worker(Task(id, lv, rv, op))
  {
    if Kind(op) == Other then Evaluation(0.0, before)
    else if Kind(op) == Div && rv == 0.0 then Evaluation(lv, before)
    else
      var task := Task(id, lv, rv, op);
      Evaluation(worker(task), before + [task])
  }

  /** A node's own step on the children's values `lv` and `rv`, once the subtree
      evaluated first and the one evaluated second are done with their tasks numbered
      from `next`: the node's task, if any, comes after the tasks of both. */
  function Join(op: string, lv: real, rv: real, first: Evaluation, second: Evaluation, worker: Worker, next: int): Evaluation {
    Finish(op, lv, rv, first.tasks + second.tasks, worker, next + |first.tasks| + |second.tasks|)
  }

  /** Evaluates a node, numbering the tasks it creates from `next` on, left subtree
      first. A leaf needs no task; an internal node evaluates both children and then
      takes its own step. */
  function Eval(n: Node, worker: Worker, next: int): Evaluation
    decreases n
  {
    match n
    case Leaf(v) => Evaluation(v, [])
    case Internal(op, l, r) =>
      var left := Eval(l, worker, next);
      var right := Eval(r, worker, next + |left.tasks|);
      Join(op, left.value, right.value, left, right, worker, next)
  }

  /** An internal node's evaluation is its own step on its children's evaluations. */
  lemma EvalStep(op: string, l: Node, r: Node, worker: Worker, next: int)
    ensures
      var left := Eval(l, worker, next);
      var right := Eval(r, worker, next + |left.tasks|);
      Eval(Internal(op, l, r), worker, next) == Join(op, left.value, right.value, left, right, worker, next)
  {
  }

  /** The exact-arithmetic meaning of an operator as the source computes it: `/` by
      zero is the left operand and an unknown operator is 0. */
  function Apply(op: string, a: real, b: real): real {
    match Kind(op)
    case Add => a + b
    case Sub => a - b
    case Mul => a * b
    case Div => if b == 0.0 then a else a / b
    case Other => 0.0
  }

  /** The exact-arithmetic meaning of a tree. */
  function Denote(n: Node): real {
    match n
    case Leaf(v) => v
    case Internal(op, l, r) => Apply(op, Denote(l), Denote(r))
  }

  /** A worker that answers every task as the agent computes it (wherever that answer is
      a finite number). */
  ghost predicate Honest(worker: Worker) {
    forall t {:trigger Agent.Compute(t)} :: Agent.Compute(t).result.Finite? ==> worker(t) == Agent.Compute(t).result.value
  }

  /** The agent's arithmetic as a worker; the answer for a zero divisor is never asked for. */
  function AgentWorker(t: Task): real {
    match Agent.Compute(t).result
    case Finite(v) => v
    case NonFinite => 0.0
  }

  lemma AgentWorkerIsHonest()
    ensures Honest(AgentWorker)
  {
  }

  /** A leaf evaluates to its stored value without creating a task. */
  lemma EvalLeaf(v: real, worker: Worker, next: int)
    ensures Eval(Leaf(v), worker, next) == Evaluation(v, [])
  {
  }

  /** For `+ - *`, and for `/` with a non-zero right operand, the node's value is what the
      worker delivers for one new task carrying the two children's values and the
      operator; that task is created after every task of both subtrees. */
  lemma TaskAfterBothSubtrees(op: string, l: Node, r: Node, worker: Worker, next: int)
    requires Kind(op) != Other
    requires Kind(op) == Div ==> Eval(r, worker, next + |Eval(l, worker, next).tasks|).value != 0.0
    ensures
      var left := Eval(l, worker, next);
      var right := Eval(r, worker, next + |left.tasks|);
      var task := Task(next + |left.tasks| + |right.tasks|, left.value, right.value, op);
      Eval(Internal(op, l, r), worker, next) == Evaluation(worker(task), left.tasks + right.tasks + [task])
  {
    EvalStep(op, l, r, worker, next);
  }

  /** Division by a right operand that evaluates to zero yields the left operand and
      creates no task of its own. */
  lemma ZeroDivisorSkipsTask(l: Node, r: Node, worker: Worker, next: int)
    requires Eval(r, worker, next + |Eval(l, worker, next).tasks|).value == 0.0
    ensures
      var left := Eval(l, worker, next);
      var right := Eval(r, worker, next + |left.tasks|);
      Eval(Internal("/", l, r), worker, next) == Evaluation(left.value, left.tasks + right.tasks)
  {
    EvalStep("/", l, r, worker, next);
  }

  /** An operator the evaluator does not know yields 0 and creates no task of its own,
      though both subtrees are still evaluated. */
  lemma UnknownOperatorYieldsZero(op: string, l: Node, r: Node, worker: Worker, next: int)
    requires Kind(op) == Other
    ensures
      var left := Eval(l, worker, next);
      var right := Eval(r, worker, next + |left.tasks|);
      Eval(Internal(op, l, r), worker, next) == Evaluation(0.0, left.tasks + right.tasks)
  {
    EvalStep(op, l, r, worker, next);
  }

  /** Every operator of the tree is one of `+ - *`, so no node can skip its task. */
  predicate NoDivisionOrUnknown(n: Node) {
    match n
    case Leaf(_) => true
    case Internal(op, l, r) => Kind(op) != Div && Kind(op) != Other && NoDivisionOrUnknown(l) && NoDivisionOrUnknown(r)
  }

  lemma TaskOfKnownOperator(op: string, lv: real, rv: real, first: Evaluation, second: Evaluation, worker: Worker, next: int)
    requires Kind(op) != Div && Kind(op) != Other
    ensures |Join(op, lv, rv, first, second, worker, next).tasks| == |first.tasks| + |second.tasks| + 1
  {
  }

  /** Evaluation publishes at most one task per operator of the tree. */
  lemma {:induction false} AtMostOneTaskPerOperator(n: Node, worker: Worker, next: int)
    ensures |Eval(n, worker, next).tasks| <= InternalCount(n)
    decreases n
  {
    match n
    case Leaf(_) =>
    case Internal(op, l, r) =>
      AtMostOneTaskPerOperator(l, worker, next);
      AtMostOneTaskPerOperator(r, worker, next + |Eval(l, worker, next).tasks|);
  }

  /** Without division or unknown operators there is exactly one task per internal node. */
  lemma {:induction false} OneTaskPerOperator(n: Node, worker: Worker, next: int)
    requires NoDivisionOrUnknown(n)
    ensures |Eval(n, worker, next).tasks| == InternalCount(n)
    decreases n
  {
    match n
    case Leaf(_) =>
    case Internal(op, l, r) =>
      var left := Eval(l, worker, next);
      var mid := next + |left.tasks|;
      var right := Eval(r, worker, mid);
      EvalStep(op, l, r, worker, next);
      TaskOfKnownOperator(op, left.value, right.value, left, right, worker, next);
      OneTaskPerOperator(l, worker, next);
      OneTaskPerOperator(r, worker, mid);
      assert |Eval(n, worker, next).tasks| == |left.tasks| + |right.tasks| + 1;
  }

  lemma NumberedAppend(a: seq<Task>, b: seq<Task>, next: int)
    requires NumberedFrom(a, next) && NumberedFrom(b, next + |a|)
    ensures NumberedFrom(a + b, next)
  {
    forall i | 0 <= i < |a + b|
      ensures (a + b)[i].id == next + i && Dispatchable((a + b)[i])
    {
      if i >= |a| {
        assert (a + b)[i] == b[i - |a|];
      }
    }
  }

  /** A node's own step, taken after the tasks `before` of its subtrees, keeps the
      published tasks numbered consecutively and dispatchable. */
  lemma FinishNumbered(op: string, lv: real, rv: real, before: seq<Task>, worker: Worker, next: int)
    requires NumberedFrom(before, next)
    ensures NumberedFrom(Finish(op, lv, rv, before, worker, next + |before|).tasks, next)
  {
    if Finish(op, lv, rv, before, worker, next + |before|).tasks != before {
      var task := Task(next + |before|, lv, rv, op);
      assert NumberedFrom([task], next + |before|);
      NumberedAppend(before, [task], next);
    }
  }

  /** The same for a node's step after both subtrees. */
  lemma JoinNumbered(op: string, lv: real, rv: real, first: Evaluation, second: Evaluation, worker: Worker, next: int)
    requires NumberedFrom(first.tasks, next) && NumberedFrom(second.tasks, next + |first.tasks|)
    ensures NumberedFrom(Join(op, lv, rv, first, second, worker, next).tasks, next)
  {
    NumberedAppend(first.tasks, second.tasks, next);
    FinishNumbered(op, lv, rv, first.tasks + second.tasks, worker, next);
  }

  /** Every task evaluation publishes is numbered consecutively from `next` and is
      dispatchable: the worker knows its operator and, for division, its divisor is not
      zero. */
  lemma {:induction false} PublishedTasks(n: Node, worker: Worker, next: int)
    ensures NumberedFrom(Eval(n, worker, next).tasks, next)
    decreases n
  {
    match n
    case Leaf(_) =>
    case Internal(op, l, r) =>
      var left := Eval(l, worker, next);
      var right := Eval(r, worker, next + |left.tasks|);
      EvalStep(op, l, r, worker, next);
      PublishedTasks(l, worker, next);
      PublishedTasks(r, worker, next + |left.tasks|);
      JoinNumbered(op, left.value, right.value, left, right, worker, next);
  }

  /** The worker's division branch is never handed a zero divisor: every task the
      evaluator publishes has a finite answer. */
  lemma PublishedTasksHaveFiniteResults(n: Node, worker: Worker, next: int)
    ensures forall t :: t in Eval(n, worker, next).tasks ==> Agent.Compute(t).result.Finite?
  {
    PublishedTasks(n, worker, next);
    var ts := Eval(n, worker, next).tasks;
    forall t | t in ts
      ensures Agent.Compute(t).result.Finite?
    {
      var i :| 0 <= i < |ts| && ts[i] == t;
    }
  }

  /** An honest worker answers every task the evaluator may publish with the exact
      meaning of its operator. */
  lemma HonestWorkerApplies(worker: Worker, t: Task)
    requires Honest(worker)
    requires Dispatchable(t)
    ensures worker(t) == Apply(t.operation, t.operand1, t.operand2)
  {
    assert Agent.Compute(t).result.Finite?;
  }

  /** With an honest worker a node's own step yields its operator's exact meaning applied
      to the values of its children, whatever tasks came before it. */
  lemma HonestFinish(op: string, lv: real, rv: real, before: seq<Task>, worker: Worker, id: int)
    requires Honest(worker)
    ensures Finish(op, lv, rv, before, worker, id).value == Apply(op, lv, rv)
  {
    if Kind(op) != Other && !(Kind(op) == Div && rv == 0.0) {
      HonestWorkerApplies(worker, Task(id, lv, rv, op));
    }
  }

  /** The same for a node's step after both subtrees. */
  lemma HonestJoin(op: string, lv: real, rv: real, first: Evaluation, second: Evaluation, worker: Worker, next: int)
    requires Honest(worker)
    ensures Join(op, lv, rv, first, second, worker, next).value == Apply(op, lv, rv)
  {
    HonestFinish(op, lv, rv, first.tasks + second.tasks, worker, next + |first.tasks| + |second.tasks|);
  }

  /** With an honest worker a node whose children evaluate to their exact meaning
      evaluates to its own. */
  lemma EvalCorrectStep(op: string, l: Node, r: Node, worker: Worker, next: int)
    requires Honest(worker)
    requires Eval(l, worker, next).value == Denote(l)
    requires Eval(r, worker, next + |Eval(l, worker, next).tasks|).value == Denote(r)
    ensures Eval(Internal(op, l, r), worker, next).value == Denote(Internal(op, l, r))
  {
    var left := Eval(l, worker, next);
    var right := Eval(r, worker, next + |left.tasks|);
    EvalStep(op, l, r, worker, next);
    HonestJoin(op, left.value, right.value, left, right, worker, next);
  }

  /** With a worker that computes as the agent does, evaluation yields the exact meaning
      of the tree. */
  lemma {:induction false} EvalCorrect(n: Node, worker: Worker, next: int)
    requires Honest(worker)
    ensures Eval(n, worker, next).value == Denote(n)
    decreases n
  {
    match n
    case Leaf(_) =>
    case Internal(op, l, r) =>
      EvalCorrect(l, worker, next);
      EvalCorrect(r, worker, next + |Eval(l, worker, next).tasks|);
      EvalCorrectStep(op, l, r, worker, next);
  }
}

=== FILE: expr_tree.dfy ===
/** The operation tree the orchestrator builds from a postfix token list. */
module ExprTree {

  /** A postfix token: a numeric literal or anything that does not parse as a number,
      which the tree builder treats as an operator. */
  datatype Token = Num(value: real) | Op(symbol: string)

  /** A node of the operation tree: a leaf holding a value, or an operator owning
      exactly two children. */
  datatype Node = Leaf(value: real) | Internal(op: string, left: Node, right: Node)

  function LeafCount(n: Node): nat {
    match n
    case Leaf(_) => 1
    case Internal(_, l, r) => LeafCount(l) + LeafCount(r)
  }

  function InternalCount(n: Node): nat {
    match n
    case Leaf(_) => 0
    case Internal(_, l, r) => 1 + InternalCount(l) + InternalCount(r)
  }

  /** The postfix traversal of a tree: left subtree, right subtree, then the operator. */
  function Postfix(n: Node): seq<Token> {
    match n
    case Leaf(v) => [Num(v)]
    case Internal(op, l, r) => Postfix(l) + Postfix(r) + [Op(op)]
  }

  /** The concatenated postfix traversals of a stack of pending nodes, bottom first. */
  function Flatten(stack: seq<Node>): seq<Token> {
    if stack == [] then [] else Flatten(stack[..|stack| - 1]) + Postfix(stack[|stack| - 1])
  }

  /** The net number of operands a token list leaves behind: each number pushes one,
      each operator consumes two and pushes one. */
  function Arity(ts: seq<Token>): int {
    if ts == [] then 0 else (if ts[0].Num? then 1 else -1) + Arity(ts[1..])
  }

  /** A token list is a well-formed postfix expression when every operator finds at
      least two operands before it and exactly one operand is left at the end. */
  predicate ValidPostfix(ts: seq<Token>) {
    && (forall i :: 0 <= i < |ts| && ts[i].Op? ==> Arity(ts[..i]) >= 2)
    && Arity(ts) == 1
  }

  /** Every binary tree has exactly one more leaf than internal nodes. */
  lemma {:induction false} LeafCountIsInternalCountPlusOne(n: Node)
    ensures LeafCount(n) == InternalCount(n) + 1
  {
    match n
    case Leaf(_) =>
    case Internal(_, l, r) =>
      LeafCountIsInternalCountPlusOne(l);
      LeafCountIsInternalCountPlusOne(r);
  }

  lemma {:induction false} ArityAppend(a: seq<Token>, b: seq<Token>)
    ensures Arity(a + b) == Arity(a) + Arity(b)
    decreases |a|
  {
    if a == [] {
      assert a + b == b;
    } else {
      assert (a + b)[1..] == a[1..] + b;
      ArityAppend(a[1..], b);
    }
  }

  /** Joining two well-formed postfix expressions under an operator is well formed. */
  lemma CombineValid(pl: seq<Token>, pr: seq<Token>, op: string)
    requires ValidPostfix(pl) && ValidPostfix(pr)
    ensures ValidPostfix(pl + pr + [Op(op)])
  {
    var ts := pl + pr + [Op(op)];
    ArityAppend(pl, pr);
    ArityAppend(pl + pr, [Op(op)]);
    assert Arity([Op(op)]) == -1 by {
      assert [Op(op)][1..] == [];
    }
    forall i | 0 <= i < |ts| && ts[i].Op?
      ensures Arity(ts[..i]) >= 2
    {
      if i < |pl| {
        assert ts[..i] == pl[..i];
        assert pl[i] == ts[i];
      } else if i < |pl| + |pr| {
        var j := i - |pl|;
        assert ts[..i] == pl + pr[..j];
        assert pr[j] == ts[i];
        ArityAppend(pl, pr[..j]);
      } else {
        assert ts[..i] == pl + pr;
      }
    }
  }

  /** The postfix traversal of any tree is a well-formed postfix expression. */
  lemma {:induction false} PostfixIsValid(n: Node)
    ensures ValidPostfix(Postfix(n))
  {
    match n
    case Leaf(v) =>
      assert Postfix(n)[1..] == [];
    case Internal(op, l, r) =>
      PostfixIsValid(l);
      PostfixIsValid(r);
      CombineValid(Postfix(l), Postfix(r), op);
  }
}

=== FILE: results.dfy ===
/** How each stage of the calculator reports its outcome: the value it produced, or
    the error that stops the calculation. */
module Results {

  /** Either a value or an error, the Dafny counterpart of Go's `(value, error)` pair. */
  datatype Result<+T, +E> = Ok(value: T) | Err(error: E) {

    predicate IsFailure() {
      Err?
    }

    function PropagateFailure<U>(): Result<U, E>
      requires Err?
    {
      Err(error)
    }

    function Extract(): T
      requires Ok?
    {
      value
    }
  }
}

=== FILE: scenarios.dfy ===
/** Worked expressions, stated on the postfix token lists the converter produces for them. */
module Scenarios {
  import opened Results
  import opened ExprTree
  import opened TreeBuilder
  import opened Tasks
  import opened Evaluator

  /** `2+3*4` arrives as `2 3 4 * +`; its tree is `+` over `2` and `*`(3, 4), evaluated
      with two tasks to 14. */
  lemma TwoPlusThreeTimesFour(worker: Worker)
    requires Honest(worker)
    ensures
      var tree := Internal("+", Leaf(2.0), Internal("*", Leaf(3.0), Leaf(4.0)));
      && RpnToTree([Num(2.0), Num(3.0), Num(4.0), Op("*"), Op("+")]) == Ok(tree)
      && Eval(tree, worker, 0).value == 14.0
      && |Eval(tree, worker, 0).tasks| == 2
  {
    var tree := Internal("+", Leaf(2.0), Internal("*", Leaf(3.0), Leaf(4.0)));
    assert Postfix(tree) == [Num(2.0), Num(3.0), Num(4.0), Op("*"), Op("+")];
    RpnToTreeOfPostfix(tree);
    assert Kind("*") == Mul && Kind("+") == Add;
    assert Denote(tree) == 14.0;
    EvalCorrect(tree, worker, 0);
    OneTaskPerOperator(tree, worker, 0);
  }

  /** `(1+2)*(3-1)` arrives as `1 2 + 3 1 - *` and builds the product of the two
      bracketed subtrees. */
  lemma BracketedProductTree()
    ensures
      RpnToTree([Num(1.0), Num(2.0), Op("+"), Num(3.0), Num(1.0), Op("-"), Op("*")])
        == Ok(Internal("*", Internal("+", Leaf(1.0), Leaf(2.0)), Internal("-", Leaf(3.0), Leaf(1.0))))
  {
    var tree := Internal("*", Internal("+", Leaf(1.0), Leaf(2.0)), Internal("-", Leaf(3.0), Leaf(1.0)));
    assert Postfix(tree) == [Num(1.0), Num(2.0), Op("+"), Num(3.0), Num(1.0), Op("-"), Op("*")];
    RpnToTreeOfPostfix(tree);
  }

  /** That tree evaluates to 6. */
  lemma BracketedProductValue(worker: Worker)
    requires Honest(worker)
    ensures Eval(Internal("*", Internal("+", Leaf(1.0), Leaf(2.0)), Internal("-", Leaf(3.0), Leaf(1.0))), worker, 0).value == 6.0
  {
    var sum, diff := Internal("+", Leaf(1.0), Leaf(2.0)), Internal("-", Leaf(3.0), Leaf(1.0));
    assert Denote(sum) == 3.0 && Denote(diff) == 2.0;
    EvalCorrect(Internal("*", sum, diff), worker, 0);
  }

  /** `5/0` evaluates to 5 whatever the workers do, because no task is created. */
  lemma FiveDividedByZero(worker: Worker)
    ensures
      var tree := Internal("/", Leaf(5.0), Leaf(0.0));
      && RpnToTree([Num(5.0), Num(0.0), Op("/")]) == Ok(tree)
      && Eval(tree, worker, 0) == Evaluation(5.0, [])
  {
    var tree := Internal("/", Leaf(5.0), Leaf(0.0));
    assert Postfix(tree) == [Num(5.0), Num(0.0), Op("/")];
    RpnToTreeOfPostfix(tree);
    EvalLeaf(5.0, worker, 0);
    EvalLeaf(0.0, worker, 0);
    ZeroDivisorSkipsTask(Leaf(5.0), Leaf(0.0), worker, 0);
  }

  /** A trailing operator, `2 +`, runs short of operands. */
  lemma TrailingOperator()
    ensures RpnToTree([Num(2.0), Op("+")]) == Err(NotEnoughOperands("+"))
  {
  }

  /** Two operands and no operator leave two disconnected nodes. */
  lemma LeftoverOperands()
    ensures RpnToTree([Num(1.0), Num(2.0)]) == Err(IncorrectExpression)
  {
  }
}

=== FILE: scheduling.dfy ===
/** Evaluation under any order of creating sibling subtrees' tasks. The source starts
    both subtrees of a node concurrently, so whether the left or the right subtree's
    tasks are created (and numbered) first depends on scheduling; a schedule fixes that
    choice for every node, by its path from the root. */
module Scheduling {
  import opened Tasks
  import opened ExprTree
  import opened Evaluator

  /** The nodes whose right subtree's tasks are created before their left subtree's,
      each named by its path of steps from the root (`false` left, `true` right). */
  type Schedule = set<seq<bool>>

  /** Evaluates the node at `path` under a schedule, numbering the tasks it creates from
      `next` on: the subtree the schedule names first is evaluated first, the other one
      numbers its tasks after it, and the node's own step comes after both. */
  function EvalScheduled(n: Node, worker: Worker, next: int, schedule: Schedule, path: seq<bool>): Evaluation
    decreases n
  {
    match n
    case Leaf(v) => Evaluation(v, [])
    case Internal(op, l, r) =>
      if path in schedule then
        var first := EvalScheduled(r, worker, next, schedule, path + [true]);
        var second := EvalScheduled(l, worker, next + |first.tasks|, schedule, path + [false]);
        Join(op, second.value, first.value, first, second, worker, next)
      else
        var first := EvalScheduled(l, worker, next, schedule, path + [false]);
        var second := EvalScheduled(r, worker, next + |first.tasks|, schedule, path + [true]);
        Join(op, first.value, second.value, first, second, worker, next)
  }

  /** An internal node takes its own step after both subtrees, in the scheduled order:
      `first` and `second` are the evaluations of the subtree the schedule starts with
      and of the other one. */
  lemma ScheduledStep(op: string, l: Node, r: Node, worker: Worker, next: int, schedule: Schedule, path: seq<bool>, first: Evaluation, second: Evaluation)
    requires path !in schedule ==>
      && first == EvalScheduled(l, worker, next, schedule, path + [false])
      && second == EvalScheduled(r, worker, next + |first.tasks|, schedule, path + [true])
    requires path in schedule ==>
      && first == EvalScheduled(r, worker, next, schedule, path + [true])
      && second == EvalScheduled(l, worker, next + |first.tasks|, schedule, path + [false])
    ensures path !in schedule ==>
      EvalScheduled(Internal(op, l, r), worker, next, schedule, path) == Join(op, first.value, second.value, first, second, worker, next)
    ensures path in schedule ==>
      EvalScheduled(Internal(op, l, r), worker, next, schedule, path) == Join(op, second.value, first.value, first, second, worker, next)
  {
  }

  /** The empty schedule, which starts every node with its left subtree, gives the
      left-first evaluator. */
  lemma {:induction false} LeftFirstIsEval(n: Node, worker: Worker, next: int, schedule: Schedule, path: seq<bool>)
    requires schedule == {}
    ensures EvalScheduled(n, worker, next, schedule, path) == Eval(n, worker, next)
    decreases n
  {
    match n
    case Leaf(_) =>
    case Internal(op, l, r) =>
      var toLeft, toRight := path + [false], path + [true];
      var first := EvalScheduled(l, worker, next, schedule, toLeft);
      var mid := next + |first.tasks|;
      var second := EvalScheduled(r, worker, mid, schedule, toRight);
      ScheduledStep(op, l, r, worker, next, schedule, path, first, second);
      LeftFirstIsEval(l, worker, next, schedule, toLeft);
      LeftFirstIsEval(r, worker, mid, schedule, toRight);
      EvalStep(op, l, r, worker, next);
  }

  /** Under every schedule the published tasks are numbered consecutively in the order
      they are created, and each is dispatchable. */
  lemma {:induction false} ScheduledTasksNumbered(n: Node, worker: Worker, next: int, schedule: Schedule, path: seq<bool>)
    ensures NumberedFrom(EvalScheduled(n, worker, next, schedule, path).tasks, next)
    decreases n
  {
    match n
    case Leaf(_) =>
    case Internal(op, l, r) =>
      var toLeft, toRight := path + [false], path + [true];
      if path in schedule {
        var first := EvalScheduled(r, worker, next, schedule, toRight);
        var mid := next + |first.tasks|;
        var second := EvalScheduled(l, worker, mid, schedule, toLeft);
        ScheduledStep(op, l, r, worker, next, schedule, path, first, second);
        ScheduledTasksNumbered(r, worker, next, schedule, toRight);
        ScheduledTasksNumbered(l, worker, mid, schedule, toLeft);
        JoinNumbered(op, second.value, first.value, first, second, worker, next);
      } else {
        var first := EvalScheduled(l, worker, next, schedule, toLeft);
        var mid := next + |first.tasks|;
        var second := EvalScheduled(r, worker, mid, schedule, toRight);
        ScheduledStep(op, l, r, worker, next, schedule, path, first, second);
        ScheduledTasksNumbered(l, worker, next, schedule, toLeft);
        ScheduledTasksNumbered(r, worker, mid, schedule, toRight);
        JoinNumbered(op, first.value, second.value, first, second, worker, next);
      }
  }

  /** What a task asks of the worker, leaving out its id. */
  datatype Job = Job(operand1: real, operand2: real, operation: string)

  /** The jobs a sequence of tasks asks for. */
  function JobsOf(tasks: seq<Task>): multiset<Job>
    decreases |tasks|
  {
    if tasks == [] then multiset{}
    else
      var t := tasks[|tasks| - 1];
      JobsOf(tasks[..|tasks| - 1]) + multiset{Job(t.operand1, t.operand2, t.operation)}
  }

  lemma {:induction false} JobsOfAppend(a: seq<Task>, b: seq<Task>)
    ensures JobsOf(a + b) == JobsOf(a) + JobsOf(b)
    decreases |b|
  {
    if b == [] {
      assert a + b == a;
    } else {
      var t := b[|b| - 1];
      assert (a + b)[..|a + b| - 1] == a + b[..|b| - 1];
      assert (a + b)[|a + b| - 1] == t;
      JobsOfAppend(a, b[..|b| - 1]);
    }
  }

  /** The job a node with operator `op` and children's values `lv`, `rv` asks for:
      none for an unknown operator or a division by zero. */
  function OwnJob(op: string, lv: real, rv: real): multiset<Job> {
    if Kind(op) == Other || (Kind(op) == Div && rv == 0.0) then multiset{}
    else multiset{Job(lv, rv, op)}
  }

  /** The jobs a tree needs workers for, from its exact meaning alone. */
  function Jobs(n: Node): multiset<Job> {
    match n
    case Leaf(_) => multiset{}
    case Internal(op, l, r) => Jobs(l) + Jobs(r) + OwnJob(op, Denote(l), Denote(r))
  }

  /** A node's own step adds at most the one job for its children's values. */
  lemma FinishJobs(op: string, lv: real, rv: real, before: seq<Task>, worker: Worker, id: int)
    ensures JobsOf(Finish(op, lv, rv, before, worker, id).tasks) == JobsOf(before) + OwnJob(op, lv, rv)
  {
    var f := Finish(op, lv, rv, before, worker, id);
    if f.tasks != before {
      assert f.tasks[..|f.tasks| - 1] == before;
    }
  }

  lemma JoinJobs(op: string, lv: real, rv: real, first: Evaluation, second: Evaluation, worker: Worker, next: int)
    ensures JobsOf(Join(op, lv, rv, first, second, worker, next).tasks) == JobsOf(first.tasks) + JobsOf(second.tasks) + OwnJob(op, lv, rv)
  {
    JobsOfAppend(first.tasks, second.tasks);
    FinishJobs(op, lv, rv, first.tasks + second.tasks, worker, next + |first.tasks| + |second.tasks|);
  }

  /** A node's own step, after its subtrees `l` and `r` evaluated to their exact
      meanings and published exactly the jobs they need, in either order, yields the
      node's exact meaning and leaves exactly the jobs the node needs. */
  lemma JoinSound(op: string, l: Node, r: Node, left: Evaluation, right: Evaluation, first: Evaluation, second: Evaluation, worker: Worker, next: int)
    requires Honest(worker)
    requires left.value == Denote(l) && JobsOf(left.tasks) == Jobs(l)
    requires right.value == Denote(r) && JobsOf(right.tasks) == Jobs(r)
    requires (first == left && second == right) || (first == right && second == left)
    ensures Join(op, left.value, right.value, first, second, worker, next).value == Denote(Internal(op, l, r))
    ensures JobsOf(Join(op, left.value, right.value, first, second, worker, next).tasks) == Jobs(Internal(op, l, r))
  {
    assert JobsOf(first.tasks) + JobsOf(second.tasks) == Jobs(l) + Jobs(r);
    JoinJobs(op, left.value, right.value, first, second, worker, next);
    HonestJoin(op, left.value, right.value, first, second, worker, next);
  }

  /** With an honest worker every schedule yields the exact meaning of the tree and
      publishes exactly the jobs the tree needs. */
  lemma {:induction false} ScheduledSound(n: Node, worker: Worker, next: int, schedule: Schedule, path: seq<bool>)
    requires Honest(worker)
    ensures EvalScheduled(n, worker, next, schedule, path).value == Denote(n)
    ensures JobsOf(EvalScheduled(n, worker, next, schedule, path).tasks) == Jobs(n)
    decreases n
  {
    match n
    case Leaf(_) =>
    case Internal(op, l, r) =>
      var toLeft, toRight := path + [false], path + [true];
      if path in schedule {
        var first := EvalScheduled(r, worker, next, schedule, toRight);
        var mid := next + |first.tasks|;
        var second := EvalScheduled(l, worker, mid, schedule, toLeft);
        ScheduledStep(op, l, r, worker, next, schedule, path, first, second);
        ScheduledSound(r, worker, next, schedule, toRight);
        ScheduledSound(l, worker, mid, schedule, toLeft);
        JoinSound(op, l, r, second, first, first, second, worker, next);
      } else {
        var first := EvalScheduled(l, worker, next, schedule, toLeft);
        var mid := next + |first.tasks|;
        var second := EvalScheduled(r, worker, mid, schedule, toRight);
        ScheduledStep(op, l, r, worker, next, schedule, path, first, second);
        ScheduledSound(l, worker, next, schedule, toLeft);
        ScheduledSound(r, worker, mid, schedule, toRight);
        JoinSound(op, l, r, first, second, first, second, worker, next);
      }
  }

  /** With an honest worker neither the order in which sibling subtrees' tasks are
      created nor the first id changes the value, and the same jobs are published, only
      numbered differently. */
  lemma {:induction false} ValueIndependentOfTaskOrder(n: Node, worker: Worker, s1: Schedule, s2: Schedule, next1: int, next2: int)
    requires Honest(worker)
    ensures EvalScheduled(n, worker, next1, s1, []).value == EvalScheduled(n, worker, next2, s2, []).value
    ensures JobsOf(EvalScheduled(n, worker, next1, s1, []).tasks) == JobsOf(EvalScheduled(n, worker, next2, s2, []).tasks)
  {
    ScheduledSound(n, worker, next1, s1, []);
    ScheduledSound(n, worker, next2, s2, []);
  }
}

=== FILE: tasks.dfy ===
/** The records exchanged between the orchestrator and its workers. */
module Tasks {

  /** One binary operation handed to a worker: two resolved operands and an operator.
      The simulated duration a worker waits before answering has no effect on values
      and is not part of the model. */
  datatype Task = Task(id: int, operand1: real, operand2: real, operation: string)

  /** A float64 a worker can produce. Exact real arithmetic stands in for every finite
      IEEE result; the infinities and NaN that division by zero yields are one value. */
  datatype Float = Finite(value: real) | NonFinite

  /** The four operator symbols both the evaluator and the worker switch on, and
      everything else. */
  datatype OpKind = Add | Sub | Mul | Div | Other

  /** Which of the four symbols an operator string is; each is one character long. */
  function Kind(op: string): OpKind {
    if |op| != 1 then Other
    else if op[0] == '+' then Add
    else if op[0] == '-' then Sub
    else if op[0] == '*' then Mul
    else if op[0] == '/' then Div
    else Other
  }

  /** A worker's answer to the task with the same id. */
  datatype TaskResult = TaskResult(id: int, result: Float)
}

=== FILE: tree_builder.dfy ===
/** Building the operation tree from a postfix token list with an explicit stack of
    pending nodes. */
module TreeBuilder {
  import opened Results
  import opened ExprTree

  /** The two ways tree building fails: an operator met with fewer than two pending
      operands, and a token list that leaves other than exactly one node behind. */
  datatype TreeError = NotEnoughOperands(operator: string) | IncorrectExpression

  /** One token's effect on the stack of pending nodes (top last). A number pushes a
      new leaf; an operator pops the top node as its right child and the node beneath
      as its left child and pushes the combined node, leaving the rest untouched. */
  function Step(stack: seq<Node>, token: Token): (r: Result<seq<Node>, TreeError>)
    ensures token.Num? ==> r == Ok(stack + [Leaf(token.value)])
    ensures token.Op? && |stack| < 2 ==> r == Err(NotEnoughOperands(token.symbol))
    ensures token.Op? && |stack| >= 2 ==>
      && r.Ok?
      && |r.value| == |stack| - 1
      && r.value[..|stack| - 2] == stack[..|stack| - 2]
      && r.value[|stack| - 2] == Internal(token.symbol, stack[|stack| - 2], stack[|stack| - 1])
  {
    match token
    case Num(v) => Ok(stack + [Leaf(v)])
    case Op(op) =>
      if |stack| < 2 then Err(NotEnoughOperands(op))
      else
        var right := stack[|stack| - 1];
        var left := stack[|stack| - 2];
        Ok(stack[..|stack| - 2] + [Internal(op, left, right)])
  }

  /** The loop over the tokens: apply each token in order, stopping at the first error. */
  function Run(stack: seq<Node>, tokens: seq<Token>): (r: Result<seq<Node>, TreeError>)
    ensures r.Ok? ==> |r.value| == |stack| + Arity(tokens)
    ensures r.Err? ==> r.error.NotEnoughOperands? && Op(r.error.operator) in tokens
    decreases |tokens|
  {
    if tokens == [] then Ok(stack)
    else
      var next :- Step(stack, tokens[0]);
      Run(next, tokens[1..])
  }

  /** Tree building succeeds exactly when a single node is left after every token and
      returns that node; a token error is passed on and any other final stack size is
      an incorrect expression. */
  function RpnToTree(tokens: seq<Token>): (r: Result<Node, TreeError>)
    ensures r.Ok? <==> Run([], tokens).Ok? && |Run([], tokens).value| == 1
    ensures r.Ok? ==> Run([], tokens).value == [r.value]
    ensures Run([], tokens).Err? ==> r == Err(Run([], tokens).error)
    ensures Run([], tokens).Ok? && |Run([], tokens).value| != 1 ==> r == Err(IncorrectExpression)
  {
    var stack :- Run([], tokens);
    if |stack| != 1 then Err(IncorrectExpression) else Ok(stack[0])
  }

  /** The same algorithm written as the loop over an explicit stack. */
  method BuildTree(tokens: seq<Token>) returns (r: Result<Node, TreeError>)
    ensures r == RpnToTree(tokens)
    ensures r.Ok? ==> Postfix(r.value) == tokens
  {
    var stack: seq<Node> := [];
    var i := 0;
    while i < |tokens|
      invariant 0 <= i <= |tokens|
      invariant Run(stack, tokens[i..]) == Run([], tokens)
    {
      var token := tokens[i];
      assert tokens[i..][1..] == tokens[i + 1..];
      if token.Num? {
        stack := stack + [Leaf(token.value)];
      } else {
        if |stack| < 2 {
          return Err(NotEnoughOperands(token.symbol));
        }
        var right := stack[|stack| - 1];
        var left := stack[|stack| - 2];
        stack := stack[..|stack| - 2];
        stack := stack + [Internal(token.symbol, left, right)];
      }
      i := i + 1;
    }
    RpnToTreeSound(tokens);
    if |stack| != 1 {
      return Err(IncorrectExpression);
    }
    return Ok(stack[0]);
  }

  // Soundness: what a successful build returns.

  lemma FlattenPush(stack: seq<Node>, n: Node)
    ensures Flatten(stack + [n]) == Flatten(stack) + Postfix(n)
  {
    assert (stack + [n])[..|stack|] == stack;
  }

  /** Replacing the top two pending nodes by the node combining them under an operator
      appends that operator to the stack's postfix traversal. */
  lemma FlattenCombine(p: seq<Node>, l: Node, r: Node, op: string)
    ensures Flatten(p + [Internal(op, l, r)]) == Flatten(p + [l] + [r]) + [Op(op)]
  {
    var a, pl, pr := Flatten(p), Postfix(l), Postfix(r);
    FlattenPush(p, Internal(op, l, r));
    FlattenPush(p, l);
    FlattenPush(p + [l], r);
    assert a + (pl + pr + [Op(op)]) == (a + pl) + pr + [Op(op)];
  }

  /** A successful step appends its token to the stack's postfix traversal. */
  lemma StepFlatten(stack: seq<Node>, t: Token)
    ensures Step(stack, t).Ok? ==> Flatten(Step(stack, t).value) == Flatten(stack) + [t]
  {
    if t.Num? {
      FlattenPush(stack, Leaf(t.value));
    } else if |stack| >= 2 {
      var k := |stack| - 2;
      var p, l, r := stack[..k], stack[k], stack[k + 1];
      assert stack == p + [l] + [r];
      assert Step(stack, t).value == p + [Internal(t.symbol, l, r)];
      FlattenCombine(p, l, r, t.symbol);
    }
  }

  /** Running the builder appends the consumed tokens to the postfix traversal of the
      pending stack. */
  lemma {:induction false} RunFlatten(stack: seq<Node>, tokens: seq<Token>)
    ensures Run(stack, tokens).Ok? ==> Flatten(Run(stack, tokens).value) == Flatten(stack) + tokens
    decreases |tokens|
  {
    if tokens != [] {
      var t := tokens[0];
      StepFlatten(stack, t);
      if Step(stack, t).Ok? {
        var next := Step(stack, t).value;
        RunFlatten(next, tokens[1..]);
        assert Flatten(stack) + [t] + tokens[1..] == Flatten(stack) + tokens;
      }
    }
  }

  /** A tree returned by the builder has the input as its postfix traversal and one more
      leaf than internal nodes. */
  lemma RpnToTreeSound(tokens: seq<Token>)
    ensures RpnToTree(tokens).Ok? ==> Postfix(RpnToTree(tokens).value) == tokens
    ensures RpnToTree(tokens).Ok? ==>
      LeafCount(RpnToTree(tokens).value) == InternalCount(RpnToTree(tokens).value) + 1
  {
    RunFlatten([], tokens);
    if RpnToTree(tokens).Ok? {
      var t := RpnToTree(tokens).value;
      FlattenPush([], t);
      assert [] + [t] == [t];
      assert Flatten([]) + tokens == tokens;
      LeafCountIsInternalCountPlusOne(t);
    }
  }

  // Completeness: every tree is rebuilt from its postfix traversal.

  /** Consuming a tree's postfix traversal pushes exactly that tree. */
  lemma {:induction false} RunPostfix(stack: seq<Node>, n: Node, rest: seq<Token>)
    ensures Run(stack, Postfix(n) + rest) == Run(stack + [n], rest)
    decreases n
  {
    match n
    case Leaf(v) =>
      assert ([Num(v)] + rest)[1..] == rest;
    case Internal(op, l, r) =>
      calc {
        Run(stack, Postfix(n) + rest);
        { assert Postfix(n) + rest == Postfix(l) + (Postfix(r) + ([Op(op)] + rest)); }
        Run(stack, Postfix(l) + (Postfix(r) + ([Op(op)] + rest)));
        { RunPostfix(stack, l, Postfix(r) + ([Op(op)] + rest)); }
        Run(stack + [l], Postfix(r) + ([Op(op)] + rest));
        { RunPostfix(stack + [l], r, [Op(op)] + rest); }
        Run(stack + [l] + [r], [Op(op)] + rest);
        { assert ([Op(op)] + rest)[1..] == rest;
          assert (stack + [l] + [r])[..|stack|] == stack; }
        Run(stack + [n], rest);
      }
  }

  /** Building from the postfix traversal of any tree returns that tree. */
  lemma RpnToTreeOfPostfix(n: Node)
    ensures RpnToTree(Postfix(n)) == Ok(n)
  {
    RunPostfix([], n, []);
    assert Postfix(n) + [] == Postfix(n);
  }

  // The outcome of a build in terms of the tokens alone.

  lemma ArityPrefix(ts: seq<Token>, i: int)
    requires 1 <= i <= |ts|
    ensures Arity(ts[..i]) == (if ts[0].Num? then 1 else -1) + Arity(ts[1..][..i - 1])
  {
    assert ts[..i][1..] == ts[1..][..i - 1];
  }

  /** Index `i` is the first operator that finds fewer than two operands when the build
      starts from a stack of `depth` pending nodes. */
  predicate FirstShortOperator(depth: int, ts: seq<Token>, i: int) {
    && 0 <= i < |ts| && ts[i].Op? && depth + Arity(ts[..i]) < 2
    && forall j :: 0 <= j < i && ts[j].Op? ==> depth + Arity(ts[..j]) >= 2
  }

  /** The builder succeeds from a stack exactly when no operator runs short, and then
      leaves the stack grown by the tokens' arity; otherwise it fails at the first
      operator that runs short, naming it. */
  lemma {:induction false} RunOutcome(stack: seq<Node>, ts: seq<Token>)
    ensures Run(stack, ts).Ok? <==>
      forall i :: 0 <= i < |ts| && ts[i].Op? ==> |stack| + Arity(ts[..i]) >= 2
    ensures Run(stack, ts).Ok? ==> |Run(stack, ts).value| == |stack| + Arity(ts)
    ensures Run(stack, ts).Err? ==>
      exists i :: FirstShortOperator(|stack|, ts, i)
        && Run(stack, ts).error == NotEnoughOperands(ts[i].symbol)
    decreases |ts|
  {
    if ts == [] {
      return;
    }
    var t := ts[0];
    assert ts[..0] == [];
    if t.Op? && |stack| < 2 {
      assert FirstShortOperator(|stack|, ts, 0);
      return;
    }
    var next := Step(stack, t).value;
    var d := if t.Num? then 1 else -1;
    assert |next| == |stack| + d;
    RunOutcome(next, ts[1..]);
    forall i | 1 <= i <= |ts|
      ensures Arity(ts[..i]) == d + Arity(ts[1..][..i - 1])
    {
      ArityPrefix(ts, i);
    }
    assert Arity(ts) == d + Arity(ts[1..]);
    if Run(stack, ts).Ok? {
      forall i | 0 <= i < |ts| && ts[i].Op?
        ensures |stack| + Arity(ts[..i]) >= 2
      {
        if i > 0 {
          assert ts[1..][i - 1] == ts[i];
        }
      }
    } else {
      var j :| FirstShortOperator(|next|, ts[1..], j)
        && Run(next, ts[1..]).error == NotEnoughOperands(ts[1..][j].symbol);
      assert ts[j + 1] == ts[1..][j];
      forall k | 0 <= k < j + 1 && ts[k].Op?
        ensures |stack| + Arity(ts[..k]) >= 2
      {
        if k > 0 {
          assert ts[1..][k - 1] == ts[k];
        }
      }
      assert FirstShortOperator(|stack|, ts, j + 1);
    }
  }

  /** Tree building succeeds exactly on well-formed postfix token lists. */
  lemma RpnToTreeSucceedsIff(tokens: seq<Token>)
    ensures RpnToTree(tokens).Ok? <==> ValidPostfix(tokens)
  {
    RunOutcome([], tokens);
  }

  /** Tree building reports a short operator exactly when some operator finds fewer than
      two operands, and names the first such operator; it reports an incorrect
      expression exactly when no operator runs short but the operands do not reduce to
      a single node. */
  lemma {:induction false} RpnToTreeErrors(tokens: seq<Token>)
    ensures RpnToTree(tokens).Err? && RpnToTree(tokens).error.NotEnoughOperands? <==>
      exists i :: FirstShortOperator(0, tokens, i)
    ensures RpnToTree(tokens).Err? && RpnToTree(tokens).error.NotEnoughOperands? ==>
      exists i :: FirstShortOperator(0, tokens, i)
        && RpnToTree(tokens).error.operator == tokens[i].symbol
    ensures RpnToTree(tokens) == Err(IncorrectExpression) <==>
      (forall i :: 0 <= i < |tokens| && tokens[i].Op? ==> Arity(tokens[..i]) >= 2)
      && Arity(tokens) != 1
  {
    RunOutcome([], tokens);
  }
}
